=== FILE: README.md ===
# Store controller model

A functional Dafny model of the decision logic in the store controller of
an Express/Mongoose "stores" application (`controllers/storeController.js`).
The application lets users publish stores (name, location, tags, photo),
browse them page by page, filter them by tag, search them by text or by
proximity, and heart their favourites. The database is replaced by an
in-memory sequence of store documents, a user by an immutable record with a
sequence of hearted store ids, and each controller by a pure function from
its inputs to what it does: render a view with data, redirect, return JSON,
or fail.

Modules:

- `Outcomes`: `Option` (a missing field, `null`) and `Verdict` (a guard that allows the request or denies it with a reason).
- `Seqs`: the MongoDB and JavaScript building blocks: `Min` (the cut-off of `limit`), mapping, filtering (`find` with a condition, `$pull`), `startsWith`, `split`/`join`, sorting by a key and `sort(...).limit(k)`.
- `Documents`: ObjectIds with their string form and Mongoose's cast of a route id, stores, users, the submitted form body, and `findOne({ _id })`.
- `Upload`: multer's `fileFilter` and the naming half of the `resize` middleware; `Ingest` composes the two.
- `Listing`: `getStores`, four stores per page, newest first, with the redirect for pages past the end.
- `Ownership`: `confirmOwner`, `editStore` (owner-gated) and `updateStore` (not gated).
- `Queries`: `getStoresByTag`, `searchStores` (at most 5, by text score) and `mapStores` (at most 10 within 10 000 m, nearest first, summarised).
- `Hearts`: `heartStore` (toggle by `$pull`/`$addToSet`) as written and as evidently intended (see Findings), and `getHearts`.

Parameters that stand for what the model leaves abstract: the uuid token in
`Resize`/`Ingest`; the text index (`matches` and `score` per query string)
in `SearchStores`; the geodesic `distance` function in `MapStores`. MongoDB
applies `sort` before `skip` and `limit` whatever the order of the calls in
the chain, and the model does the same. Stores with equal sort keys come out
in collection order, since the sort is stable. MongoDB leaves that order
unspecified.

Modelling choices where the code leaves something open:

- The page parameter is an integer or absent; `req.params.page || 1` makes an absent page 1. A page below 1 gives a negative `skip`, which MongoDB rejects, so the request fails (`QueryFailed`). On an empty collection a page past the first redirects to page 0 (`Math.ceil(0 / 4)`), and that page in turn fails.
- `tag || { $exists: true }` treats the empty string like a missing tag, because both are falsy.
- `findOne` and `findOneAndUpdate` on `_id` act on the first store with that id. When nothing matches, the controller reads a field of `null` and throws; the model returns an explicit missing-store outcome. Likewise `updateStore` throws before any write when the body has no `location`.
- `.select('slug name description location photo')` keeps `_id` as well, as MongoDB does by default.
- `$maxDistance` is inclusive: a store exactly 10 000 m away is returned.
- An ObjectId is held as its hex string. Mongoose reads hex digits without regard to case, so the cast of a route id lower-cases it, and `toString()` prints the lower-case form. Ids as MongoDB stores them are in that canonical form.
- A mime type without `/` has no piece `[1]`, and the template literal prints `undefined`, so such a file is named `<token>.undefined`.

## Model

| member | source | states |
|---|---|---|
| `Upload.FileFilter` | controllers/storeController.js:11-17 | the file passes exactly when its mime type's first six characters are `image/`; otherwise it fails with "That filetype isn't allowed!" |
| `Seqs.Split` | controllers/storeController.js:38 | `split('/')` yields at least one piece, no piece holds the separator, and there are two or more pieces exactly when the string holds one |
| `Seqs.StartsWith` | controllers/storeController.js:12 | `startsWith` holds exactly when the prefix is a prefix of the string |
| `Seqs.JoinSplit` | controllers/storeController.js:38 | joining the pieces of `split('/')` with `/` gives back the mime type |
| `Seqs.SplitJoin` | controllers/storeController.js:38 | splitting a join of `/`-free pieces gives back the pieces, so split and join are inverse |
| `Seqs.FirstPiece` | controllers/storeController.js:38 | the first piece of a split is the longest prefix that holds no separator |
| `Upload.Extension` | controllers/storeController.js:38-39 | a mime type without `/` gives `undefined`; otherwise the extension is the second piece of the split, which holds no `/` |
| `Upload.ImageExtension` | controllers/storeController.js:38 | for an `image/...` type the extension holds no `/`, is a prefix of the subtype and stops at its end or at the next `/` |
| `Upload.Resize` | controllers/storeController.js:32-39 | with no file the body is unchanged; with a file only `photo` changes, to `<token>.` followed by a `/`-free extension that is the mime subtype up to the next `/` |
| `Upload.Ingest` | controllers/storeController.js:11-39 | a file whose type lacks the `image/` prefix stops the request with the filter's error; no file passes the body unchanged; an accepted file sets `photo` to `<token>.` followed by the mime type's extension and changes nothing else |
| `Upload.PlainTextRefused` | controllers/storeController.js:12-16 | a `text/plain` upload is refused with the filter's message |
| `Upload.ImageSubtypeNamed` | controllers/storeController.js:12-39 | an `image/<subtype>` upload whose subtype holds no `/` is accepted and leaves the body unchanged but for `photo = <token>.<subtype>` |
| `Listing.ByNewest` | controllers/storeController.js:63-66 | the listing order is a permutation of the collection with `created` non-increasing |
| `Listing.PageCount` | controllers/storeController.js:71 | `pages` is the ceiling of `count / 4`: `pages*4 >= count` and `(pages-1)*4 < count` when `pages > 0` |
| `Listing.Window` | controllers/storeController.js:62-65 | the window after `skip` holds `min(4, count - skip)` stores, none when `skip` reaches the count, and its k-th store is the sorted collection's `(skip + k)`-th |
| `Listing.GetStores` | controllers/storeController.js:59-80 | a page below 1 fails; the request redirects exactly when the page is above 1 and `skip = 4*page - 4` reaches the count, to `ceil(count/4)`; otherwise it renders `min(4, count - skip)` stores, newest first, drawn from the collection, with the count and page count |
| `Listing.FirstPageNeverRedirects` | controllers/storeController.js:60-72 | page 1, given or defaulted, always renders, even for an empty collection |
| `Listing.EmptyCollectionRedirectsToZero` | controllers/storeController.js:71-77 | on an empty collection every page above 1 redirects to page 0 |
| `Listing.RedirectTargetRenders` | controllers/storeController.js:71-77 | on a non-empty collection the redirect target renders a non-empty page, so no second redirect follows |
| `Listing.StoreAtRankIsOnItsPage` | controllers/storeController.js:61-66 | the store at position k of the newest-first order is at index `k % 4` of page `k / 4 + 1` |
| `Documents.CastId` | controllers/storeController.js:186 | the cast of a route id is canonical (lower-case) and equals the route id up to case, so every spelling of an id casts to the same id; a spelling that is already canonical casts to itself |
| `Documents.FindById` | controllers/storeController.js:92 | the lookup yields the first position holding the id, or nothing exactly when no store has it |
| `Documents.FindUnique` | controllers/storeController.js:92 | with unique ids the lookup of a store's id finds that store |
| `Ownership.ConfirmOwner` | controllers/storeController.js:83-87 | the guard passes exactly when the store's author is the user and otherwise fails with the ownership message |
| `Ownership.EditStore` | controllers/storeController.js:89-99 | the edit form, titled `Edit <name>`, is rendered only for a store with the id whose author is the user; a missing store is reported exactly when no store has the id; a refusal carries the ownership message and comes from a store with the id but another author |
| `Ownership.NonOwnerNeverGetsEditForm` | controllers/storeController.js:92-95 | with unique ids, a user who is not a store's author is refused its edit form |
| `Ownership.OwnerGetsEditForm` | controllers/storeController.js:92-98 | with unique ids, a store's author gets its edit form |
| `Ownership.Merge` | controllers/storeController.js:103-105 | for a body holding only the form's fields, the updated store keeps its id, slug, author and creation date, takes the body's location with type `Point`, and takes each other form field from the body when present and keeps its own value otherwise |
| `Ownership.UpdateStore` | controllers/storeController.js:101-114 | no `location` fails before any write; no store with the id is reported exactly when none has it; otherwise the first store with the id (no earlier position holds it) is replaced by its merge with the body, whose location type is `Point`, every other store is unchanged, and the redirect is to `/stores/<id>/edit` |
| `Ownership.NonOwnerCanStillUpdate` | controllers/storeController.js:101-108 | a user refused the edit form still has an update of that store applied: `updateStore` checks no ownership |
| `Queries.TagQueryFor` | controllers/storeController.js:126-127 | the condition names a tag exactly when the route tag is present and non-empty, and then it names that tag; otherwise it only asks that `tags` exist |
| `Queries.GetStoresByTag` | controllers/storeController.js:125-133 | with a non-empty tag, exactly the stores whose tags contain it; with no tag or an empty one, exactly the stores that have a tags field; each as many times as in the collection |
| `Queries.SearchStores` | controllers/storeController.js:138-155 | at most 5 matching stores from the collection, none more often than it occurs there, score non-increasing; all matches when fewer than 5; no match left out scores above a returned store |
| `Queries.SearchWithoutMatchesIsEmpty` | controllers/storeController.js:141-154 | a query that matches no store yields an empty result, not an error |
| `Queries.NearestStores` | controllers/storeController.js:160-173 | at most 10 stores from the collection within 10 000 m, none more often than it occurs there, nearest first; all of them when fewer than 10; none left out is nearer than a returned one |
| `Queries.SummariseAll` | controllers/storeController.js:172 | one summary per result, in the results' order, so every result's summary is present |
| `Queries.MapStores` | controllers/storeController.js:158-174 | at most 10 summaries (id, slug, name, description, location, photo), each that of a store of the collection with a location within 10 000 m of `[lng, lat]` and, counted with repeats, drawn from the collection's summaries, nearest first; every store within the radius is summarised when fewer than 10 come back; no store within the radius whose summary is missing is nearer than a returned one |
| `Hearts.Stringify` | controllers/storeController.js:182 | one string per heart, in order, each the id's printed form |
| `Hearts.StringMembership` | controllers/storeController.js:182-183 | the route id is among the stringified hearts exactly when an id spelled exactly that way is among the hearts |
| `Hearts.CanonicalSpellingAgrees` | controllers/storeController.js:182-183 | for a route id spelled as `toString()` prints it, the string test agrees with membership of the cast id |
| `Hearts.Pull` | controllers/storeController.js:183-186 | `$pull` leaves no occurrence of the id and every other id's occurrences unchanged |
| `Hearts.PullAppended` | controllers/storeController.js:183-186 | pulling an id that was only appended restores the original hearts |
| `Hearts.AddToSet` | controllers/storeController.js:183-186 | `$addToSet` makes an absent id occur once, leaves a present one as it was, and leaves every other id unchanged |
| `Hearts.HeartStore` | controllers/storeController.js:181-189 | as written: when the route id as spelled is among the hearts' strings, no occurrence of the cast id remains; otherwise the cast id keeps its count if already hearted and occurs once if not; other ids' occurrences and the user id are unchanged |
| `Hearts.HeartStoreKeepsNoDuplicates` | controllers/storeController.js:183-186 | the request as written keeps duplicate-free hearts duplicate-free: `$pull` removes every copy and `$addToSet` never adds a second one |
| `Hearts.NonCanonicalSpellingNeverUnhearts` | controllers/storeController.js:182-186 | with hearts in canonical form, a hearted store named by a non-canonical spelling of its id stays hearted: the request leaves the user unchanged |
| `Hearts.UpperCaseSpellingExample` | controllers/storeController.js:182-186 | hearts `[5a]` and route id `5A`: `heartStore` leaves the user unchanged, while the value-based toggle empties the hearts |
| `Hearts.ToggleHeart` | controllers/storeController.js:182-188 | the toggle as intended: a hearted cast id is removed entirely, an unhearted one comes to occur once, every other id's occurrences and the user id are unchanged |
| `Hearts.ToggleAgreesOnCanonicalSpelling` | controllers/storeController.js:182-188 | for a route id spelled as `toString()` prints it, `heartStore` and the value-based toggle give the same user |
| `Hearts.ToggleTwiceRestoresMembership` | controllers/storeController.js:182-188 | two value-based toggles of the same id restore which ids are hearted |
| `Hearts.ToggleTwiceFromAbsent` | controllers/storeController.js:182-188 | hearting an unhearted store and toggling it again by value restores the user exactly |
| `Hearts.ToggleKeepsNoDuplicates` | controllers/storeController.js:182-188 | a value-based toggle keeps duplicate-free hearts duplicate-free |
| `Hearts.ToggleTwiceRestoresHearts` | controllers/storeController.js:182-188 | for duplicate-free hearts, two value-based toggles restore the hearts as a multiset |
| `Hearts.GetHearts` | controllers/storeController.js:192-194 | exactly the stores whose id is in the hearts, each as many times as in the collection |
| `Hearts.HeartedStoresListedOnce` | controllers/storeController.js:193 | with unique store ids, no store is listed twice, even when an id repeats in the hearts |
| `Hearts.HeartsRepeatsIrrelevant` | controllers/storeController.js:193 | users whose hearts hold the same ids get the same listing, repeats and order aside |

## Findings

| source | as written | input that shows it | evidently intended | confidence | as-written member | corrected member |
|---|---|---|---|---|---|---|
| controllers/storeController.js:182-186 | the toggle compares the route id as spelled with the hearts' printed (lower-case) forms, while the update casts it case-insensitively | hearts `[5a]`, route id `5A`: the test fails, `$addToSet` of the cast `5a` changes nothing, so the store can never be un-hearted through that spelling | compare ids by value, so that any spelling of a hearted id removes it | not executed | `Hearts.HeartStore`, `Hearts.NonCanonicalSpellingNeverUnhearts`, `Hearts.UpperCaseSpellingExample` | `Hearts.ToggleHeart`, `Hearts.ToggleTwiceRestoresMembership`, `Hearts.ToggleTwiceFromAbsent` |

## Left out

- Image decoding, the resize to 800 pixels wide and the file write (jimp), and multer's memory storage: binary I/O in foreign libraries. Only the file name is modelled, so decode and write failures are not modelled either.
- uuid generation: the token is a parameter.
- Text relevance and geospatial distance: MongoDB computes them with floating point. Here they are parameters: which stores match a query and the score of each, and a distance function in metres.
- Parsing of the query's `lng`/`lat` with `parseFloat`: coordinates arrive as reals, so NaN inputs are not modelled.
- Non-numeric page parameters (`"abc"`, `"1.5"`): the page is an integer, so JavaScript's string-to-number coercion is not modelled.
- Route ids that are not valid ObjectId strings (a wrong length or a character that is not hex): Mongoose's cast errors are not modelled; the cast only folds the case of hex digits.
- `searchStores` without a `q` parameter: `$search: undefined` is refused by MongoDB and the request fails. `SearchStores` takes the query as a string, so that failure is not modelled.
- `Store.getTagsList` and `Store.getTopStores`: aggregations defined in a model file that is not part of this model. `getStoresByTag` returns only the matching stores, without the tag list.
- Schema validation (`runValidators`) and the slug hook of the store model: the model file is not part of this model. An update keeps the slug.
- `updateStore` merges only the form's fields (name, description, tags, location, photo); other fields a client could post are not modelled.
- `createStore`, `getStoreBySlug`, `homepage`, `addStore` and `mapPage`: plain record creation, lookup and view rendering with no decision logic.
- `render`, `redirect`, `flash`, `res.json` and `next`: responses are result values, flash messages are omitted, and only the redirect target is kept.
- `Promise.all` concurrency, and the read-then-write race in `heartStore`: the queries are pure here, and the hearts are those of the user record as loaded.
- `public/javascripts/modules/autocomplete.js`: browser wiring to the Google Maps Places widget with no logic of its own.

=== FILE: documents.dfy ===
/** The documents the store controller reads and writes: stores, users, and
    the form body submitted when a store is created or edited. */
module Documents {
  import opened Outcomes

  /** A MongoDB ObjectId, identified by its hexadecimal string form. */
  datatype ObjectId = ObjectId(hex: string)

  /** ASCII lower-casing of one character. */
  function LowerChar(c: char): char {
    if 'A' <= c <= 'Z' then (c as int + 32) as char else c
  }

  /** ASCII lower-casing of a string. */
  function Lower(s: string): (r: string)
    ensures |r| == |s|
    ensures forall i :: 0 <= i < |s| ==> r[i] == LowerChar(s[i])
  {
    seq(|s|, i requires 0 <= i < |s| => LowerChar(s[i]))
  }

  /** An id as MongoDB hands it out: its hex digits are lower case. */
  predicate Canonical(id: ObjectId) {
    Lower(id.hex) == id.hex
  }

  /** `id.toString()`: the string form of an id, as stored. */
  function IdToString(id: ObjectId): string {
    id.hex
  }

  /** Mongoose's cast of a route parameter to an ObjectId, as done for the
      `_id` filters and for the `hearts` updates. Hex digits are read without
      regard to case, so every spelling of an id casts to the lower-case one. */
  function CastId(s: string): (id: ObjectId)
    ensures Canonical(id)
    ensures Lower(id.hex) == Lower(s)
    ensures Canonical(ObjectId(s)) ==> id == ObjectId(s)
  {
    var r := Lower(s);
    assert Lower(r) == r;
    ObjectId(r)
  }

  /** A GeoJSON coordinate pair, `[longitude, latitude]`. */
  datatype Point = Point(lng: real, lat: real)

  /** A store's location: a GeoJSON geometry whose `type` field is `kind`. */
  datatype Location = Location(kind: string, coordinates: Point, address: string)

  /** A store document. `tags`, `location` and `photo` may be missing from a
      document; `created` is the creation time as a number. */
  datatype Store = Store(
    id: ObjectId,
    name: string,
    slug: string,
    description: string,
    tags: Option<seq<string>>,
    location: Option<Location>,
    photo: Option<string>,
    author: ObjectId,
    created: int)

  /** A user document; `hearts` holds the ids of the user's favourite stores. */
  datatype User = User(id: ObjectId, hearts: seq<ObjectId>)

  /** The submitted store form (`req.body`); a missing field is `None`. */
  datatype StoreBody = StoreBody(
    name: Option<string>,
    description: Option<string>,
    tags: Option<seq<string>>,
    location: Option<Location>,
    photo: Option<string>)

  /** No two stores in the collection share an id. */
  ghost predicate UniqueIds(db: seq<Store>) {
    forall i, j :: 0 <= i < j < |db| ==> db[i].id != db[j].id
  }

  /** `findOne({ _id: id })`: the position of the first store with that id,
      or `None` when the query yields `null`. */
  function FindById(db: seq<Store>, id: ObjectId): (r: Option<nat>)
    ensures r.Some? ==> r.value < |db| && db[r.value].id == id
    ensures r.Some? ==> forall k :: 0 <= k < r.value ==> db[k].id != id
    ensures r.None? <==> forall k :: 0 <= k < |db| ==> db[k].id != id
  {
    FindFrom(db, id, 0)
  }

  function FindFrom(db: seq<Store>, id: ObjectId, start: nat): (r: Option<nat>)
    requires start <= |db|
    requires forall k :: 0 <= k < start ==> db[k].id != id
    ensures r.Some? ==> start <= r.value < |db| && db[r.value].id == id
    ensures r.Some? ==> forall k :: 0 <= k < r.value ==> db[k].id != id
    ensures r.None? <==> forall k :: 0 <= k < |db| ==> db[k].id != id
    decreases |db| - start
  {
    if start == |db| then None
    else if db[start].id == id then Some(start)
    else FindFrom(db, id, start + 1)
  }

  /** In a collection with unique ids, the lookup finds the one store with that id. */
  lemma FindUnique(db: seq<Store>, k: nat)
    requires UniqueIds(db)
    requires k < |db|
    ensures FindById(db, db[k].id) == Some(k)
  {
  }
}

=== FILE: hearts.dfy ===
/** Favourites: `heartStore` toggles a store in the user's `hearts`, and
    `getHearts` lists the hearted stores. */
module Hearts {
  import opened Seqs
  import opened Documents

  /** `hearts.map((obj) => obj.toString())`. */
  function Stringify(hearts: seq<ObjectId>): (r: seq<string>)
    ensures |r| == |hearts|
    ensures forall i :: 0 <= i < |r| ==> r[i] == IdToString(hearts[i])
  {
    if |hearts| == 0 then [] else [IdToString(hearts[0])] + Stringify(hearts[1..])
  }

  /** Testing the string forms finds exactly the ids spelled that way. */
  lemma StringMembership(hearts: seq<ObjectId>, id: string)
    ensures id in Stringify(hearts) <==> ObjectId(id) in hearts
  {
    var strs := Stringify(hearts);
    if id in strs {
      var i :| 0 <= i < |strs| && strs[i] == id;
      assert hearts[i] == ObjectId(id);
    }
    if ObjectId(id) in hearts {
      var i :| 0 <= i < |hearts| && hearts[i] == ObjectId(id);
      assert strs[i] == id;
    }
  }

  /** For a route id spelled as MongoDB prints it, the string test and the
      value test agree. */
  lemma CanonicalSpellingAgrees(hearts: seq<ObjectId>, id: string)
    requires IdToString(CastId(id)) == id
    ensures id in Stringify(hearts) <==> CastId(id) in hearts
  {
    StringMembership(hearts, id);
  }

  /** The update operator `heartStore` picks. */
  datatype HeartOperator = PullOp | AddToSetOp

  /** `$pull`: remove every occurrence of `id`. */
  function Pull(hearts: seq<ObjectId>, id: ObjectId): (r: seq<ObjectId>)
    ensures id !in r
    ensures forall o :: o != id ==> multiset(r)[o] == multiset(hearts)[o]
  {
    Filter(hearts, o => o != id)
  }

  /** Pulling an id that was only appended gives back the original hearts. */
  lemma PullAppended(hearts: seq<ObjectId>, id: ObjectId)
    requires id !in hearts
    ensures Pull(hearts + [id], id) == hearts
  {
    var keep := (o: ObjectId) => o != id;
    assert Pull(hearts + [id], id) == Filter(hearts + [id], keep);
    FilterAppend(hearts, [id], keep);
    FilterKeepsAll(hearts, keep);
    assert Filter([id], keep) == [];
  }

  /** `$addToSet`: append `id` unless it is already there. */
  function AddToSet(hearts: seq<ObjectId>, id: ObjectId): (r: seq<ObjectId>)
    ensures multiset(r)[id] == if id in hearts then multiset(hearts)[id] else 1
    ensures forall o :: o != id ==> multiset(r)[o] == multiset(hearts)[o]
  {
    if id in hearts then hearts else hearts + [id]
  }

  /** `heartStore` as written: pull the cast id when the route id is among
      the string forms of the user's hearts, add it to the set otherwise. A
      route id spelled with upper-case hex is never among the (lower-case)
      string forms, so the set addition runs even for a hearted store. */
  function HeartStore(user: User, id: string): (r: User)
    ensures r.id == user.id
    ensures id in Stringify(user.hearts) ==> CastId(id) !in r.hearts
    ensures id !in Stringify(user.hearts) ==>
      multiset(r.hearts)[CastId(id)] == if CastId(id) in user.hearts then multiset(user.hearts)[CastId(id)] else 1
    ensures forall o :: o != CastId(id) ==> multiset(r.hearts)[o] == multiset(user.hearts)[o]
  {
    var op := if id in Stringify(user.hearts) then PullOp else AddToSetOp;
    match op
    case PullOp => user.(hearts := Pull(user.hearts, CastId(id)))
    case AddToSetOp => user.(hearts := AddToSet(user.hearts, CastId(id)))
  }

  /** The request as written keeps the hearts free of duplicates. */
  lemma HeartStoreKeepsNoDuplicates(user: User, id: string)
    requires NoDuplicates(user.hearts)
    ensures NoDuplicates(HeartStore(user, id).hearts)
  {
    var r := HeartStore(user, id).hearts;
    forall x
      ensures multiset(r)[x] <= 1
    {
      NoDuplicatesCount(user.hearts, x);
    }
    CountsAtMostOne(r);
  }

  /** With hearts as MongoDB stores them, a hearted store whose id is given in
      a non-canonical spelling is left hearted: the request changes nothing,
      and repeating it changes nothing either. */
  lemma NonCanonicalSpellingNeverUnhearts(user: User, id: string)
    requires forall h :: h in user.hearts ==> Canonical(h)
    requires IdToString(CastId(id)) != id
    requires CastId(id) in user.hearts
    ensures HeartStore(user, id) == user
    ensures CastId(id) in HeartStore(user, id).hearts
  {
    StringMembership(user.hearts, id);
    assert !Canonical(ObjectId(id));
  }

  /** The id `5a` spelled `5A`: a toggle of the hearted store leaves it hearted,
      where toggling by value removes it. */
  lemma UpperCaseSpellingExample()
    ensures HeartStore(User(ObjectId("u"), [ObjectId("5a")]), "5A") == User(ObjectId("u"), [ObjectId("5a")])
    ensures ToggleHeart(User(ObjectId("u"), [ObjectId("5a")]), "5A").hearts == []
  {
    var user := User(ObjectId("u"), [ObjectId("5a")]);
    assert Lower("5A") == "5a";
    assert CastId("5A") == ObjectId("5a");
    assert CastId("5A") in user.hearts;
    NonCanonicalSpellingNeverUnhearts(user, "5A");
  }

  /** `heartStore` as intended: the membership test compares the ids' values,
      so every spelling of a hearted id removes it. */
  function ToggleHeart(user: User, id: string): (r: User)
    ensures r.id == user.id
    ensures CastId(id) in user.hearts ==> CastId(id) !in r.hearts
    ensures CastId(id) !in user.hearts ==> multiset(r.hearts)[CastId(id)] == 1
    ensures forall o :: o != CastId(id) ==> multiset(r.hearts)[o] == multiset(user.hearts)[o]
  {
    if CastId(id) in user.hearts then user.(hearts := Pull(user.hearts, CastId(id)))
    else user.(hearts := AddToSet(user.hearts, CastId(id)))
  }

  /** For an id spelled as MongoDB prints it, the controller as written and
      the value-based toggle agree. */
  lemma ToggleAgreesOnCanonicalSpelling(user: User, id: string)
    requires IdToString(CastId(id)) == id
    ensures HeartStore(user, id) == ToggleHeart(user, id)
  {
    CanonicalSpellingAgrees(user.hearts, id);
  }

  /** Toggling twice restores which ids are hearted. */
  lemma ToggleTwiceRestoresMembership(user: User, id: string)
    ensures forall o :: o in ToggleHeart(ToggleHeart(user, id), id).hearts <==> o in user.hearts
  {
    var twice := ToggleHeart(ToggleHeart(user, id), id);
    forall o
      ensures o in twice.hearts <==> o in user.hearts
    {
      assert o in twice.hearts <==> multiset(twice.hearts)[o] > 0;
      assert o in user.hearts <==> multiset(user.hearts)[o] > 0;
    }
  }

  /** Hearting a store that was not hearted and then toggling it again gives
      back exactly the original user. */
  lemma ToggleTwiceFromAbsent(user: User, id: string)
    requires CastId(id) !in user.hearts
    ensures ToggleHeart(ToggleHeart(user, id), id) == user
  {
    var once := ToggleHeart(user, id);
    assert once.hearts == user.hearts + [CastId(id)];
    assert CastId(id) in once.hearts;
    PullAppended(user.hearts, CastId(id));
  }

  /** Toggling keeps the hearts free of duplicates. */
  lemma ToggleKeepsNoDuplicates(user: User, id: string)
    requires NoDuplicates(user.hearts)
    ensures NoDuplicates(ToggleHeart(user, id).hearts)
  {
    if CastId(id) in user.hearts {
      FilterNoDuplicates(user.hearts, o => o != CastId(id));
    }
  }

  /** With duplicate-free hearts, toggling twice restores the hearts up to order. */
  lemma ToggleTwiceRestoresHearts(user: User, id: string)
    requires NoDuplicates(user.hearts)
    ensures multiset(ToggleHeart(ToggleHeart(user, id), id).hearts) == multiset(user.hearts)
  {
    var x := CastId(id);
    var twice := ToggleHeart(ToggleHeart(user, id), id);
    if x in user.hearts {
      NoDuplicatesCount(user.hearts, x);
      assert multiset(twice.hearts)[x] == multiset(user.hearts)[x];
    } else {
      ToggleTwiceFromAbsent(user, id);
    }
  }

  /** `Store.find({ _id: { $in: hearts } })`: the stores whose id the user
      has hearted, in collection order. */
  function GetHearts(db: seq<Store>, user: User): (r: seq<Store>)
    ensures forall s :: s in r <==> s in db && s.id in user.hearts
    ensures forall s :: multiset(r)[s] == if s.id in user.hearts then multiset(db)[s] else 0
  {
    Filter(db, (s: Store) => s.id in user.hearts)
  }

  /** In a collection with unique ids each hearted store is listed once,
      however often its id repeats in the hearts. */
  lemma HeartedStoresListedOnce(db: seq<Store>, user: User)
    requires UniqueIds(db)
    ensures NoDuplicates(GetHearts(db, user))
  {
    FilterNoDuplicates(db, (s: Store) => s.id in user.hearts);
  }

  /** Only which ids are hearted matters: repeats and order in the hearts
      do not change the listing. */
  lemma HeartsRepeatsIrrelevant(db: seq<Store>, u: User, v: User)
    requires forall o :: o in u.hearts <==> o in v.hearts
    ensures GetHearts(db, u) == GetHearts(db, v)
  {
    FilterCongruent(db, (s: Store) => s.id in u.hearts, (s: Store) => s.id in v.hearts);
  }
}

=== FILE: listing.dfy ===
/** `getStores`: the paginated store listing, newest first, with the
    redirect that sends a too-high page number to the last page. */
module Listing {
  import opened Outcomes
  import opened Seqs
  import opened Documents

  /** Stores per page. */
  const PageSize: nat := 4

  /** What `getStores` does with a request. */
  datatype PageResponse =
    | Render(stores: seq<Store>, page: int, pages: nat, count: nat)
    | Redirect(target: nat)
      // MongoDB refuses a negative `skip`, so the request fails
    | QueryFailed

  /** The key that orders stores by `created`, newest first. */
  function NewestFirstKey(s: Store): real {
    -(s.created as real)
  }

  /** `created` never increases along `s`. */
  ghost predicate NewestFirst(s: seq<Store>) {
    forall i, j :: 0 <= i < j < |s| ==> s[i].created >= s[j].created
  }

  /** The collection sorted by `created` descending. */
  function ByNewest(db: seq<Store>): (r: seq<Store>)
    ensures NewestFirst(r)
    ensures multiset(r) == multiset(db)
    ensures |r| == |db|
  {
    var r := SortBy(db, NewestFirstKey);
    assert forall i, j :: 0 <= i < j < |r| ==> NewestFirstKey(r[i]) <= NewestFirstKey(r[j]);
    r
  }

  /** `Math.ceil(count / 4)`. */
  function PageCount(count: nat): (pages: nat)
    ensures pages * PageSize >= count
    ensures pages == 0 || (pages - 1) * PageSize < count
  {
    (count + PageSize - 1) / PageSize
  }

  /** `page * limit - limit`. */
  function Skip(page: int): int {
    page * PageSize - PageSize
  }

  /** The `skip(skip).limit(4)` window of the sorted collection. */
  function Window(sorted: seq<Store>, skip: nat): (r: seq<Store>)
    ensures |r| == if skip < |sorted| then Min(PageSize, |sorted| - skip) else 0
    ensures forall k :: 0 <= k < |r| ==> r[k] == sorted[skip + k]
  {
    if skip < |sorted| then sorted[skip..Min(skip + PageSize, |sorted|)] else []
  }

  /** `getStores` on the collection `db`; `pageParam` is the route's page
      number, absent on `/stores`. */
  function GetStores(db: seq<Store>, pageParam: Option<int>): (r: PageResponse)
    ensures r.QueryFailed? <==> ValueOr(pageParam, 1) < 1
    ensures r.Redirect? <==> ValueOr(pageParam, 1) > 1 && Skip(ValueOr(pageParam, 1)) >= |db|
    ensures r.Redirect? ==> r.target * PageSize >= |db| && (r.target == 0 || (r.target - 1) * PageSize < |db|)
    ensures r.Render? ==>
      && r.count == |db|
      && r.page == ValueOr(pageParam, 1)
      && r.pages * PageSize >= |db| && (r.pages == 0 || (r.pages - 1) * PageSize < |db|)
      && |r.stores| <= PageSize
      && |r.stores| == Min(PageSize, |db| - Skip(r.page))
      && NewestFirst(r.stores)
      && multiset(r.stores) <= multiset(db)
  {
    var page := ValueOr(pageParam, 1);
    var skip := Skip(page);
    if skip < 0 then QueryFailed
    else
      var sorted := ByNewest(db);
      var stores := Window(sorted, skip);
      var count := |db|;
      var pages := PageCount(count);
      if |stores| == 0 && skip != 0 then Redirect(pages)
      else
        WindowFacts(sorted, skip);
        Render(stores, page, pages, count)
  }

  lemma WindowFacts(sorted: seq<Store>, skip: nat)
    requires NewestFirst(sorted)
    ensures NewestFirst(Window(sorted, skip))
    ensures multiset(Window(sorted, skip)) <= multiset(sorted)
  {
    if skip < |sorted| {
      var e := Min(skip + PageSize, |sorted|);
      assert sorted == sorted[..skip] + sorted[skip..e] + sorted[e..];
    }
  }

  /** The first page never redirects, even on an empty collection. */
  lemma FirstPageNeverRedirects(db: seq<Store>)
    ensures GetStores(db, None).Render?
    ensures GetStores(db, Some(1)).Render?
  {
  }

  /** On an empty collection any page past the first redirects to page 0. */
  lemma EmptyCollectionRedirectsToZero(page: int)
    requires page > 1
    ensures GetStores([], Some(page)) == Redirect(0)
  {
  }

  /** On a non-empty collection the redirect lands on a page that renders
      stores, so it is never followed by a second redirect. */
  lemma RedirectTargetRenders(db: seq<Store>, page: int)
    requires |db| > 0
    requires GetStores(db, Some(page)).Redirect?
    ensures GetStores(db, Some(GetStores(db, Some(page)).target)).Render?
    ensures |GetStores(db, Some(GetStores(db, Some(page)).target)).stores| > 0
  {
  }

  /** The store at position `k` of the newest-first order is shown at index
      `k % 4` of page `k / 4 + 1`. */
  lemma StoreAtRankIsOnItsPage(db: seq<Store>, k: nat)
    requires k < |db|
    ensures GetStores(db, Some(k / PageSize + 1)).Render?
    ensures k % PageSize < |GetStores(db, Some(k / PageSize + 1)).stores|
    ensures GetStores(db, Some(k / PageSize + 1)).stores[k % PageSize] == ByNewest(db)[k]
  {
  }
}

=== FILE: outcomes.dfy ===
/** Absent values and guard verdicts: JavaScript's `undefined`/`null`, and
    the errors a guard throws or hands to Express's `next`. */
module Outcomes {

  /** A value that may be absent (`undefined` or `null` in JavaScript). */
  datatype Option<+T> = None | Some(value: T)

  /** `o || fallback` for a value that is never falsy when present. */
  function ValueOr<T>(o: Option<T>, fallback: T): T {
    if o.Some? then o.value else fallback
  }

  /** What a guard decides: let the request through, or stop it with a message. */
  datatype Verdict = Allow | Deny(reason: string)
}

=== FILE: ownership.dfy ===
/** Editing and updating a store: `confirmOwner`, `editStore` and
    `updateStore`. Only `editStore` checks ownership. */
module Ownership {
  import opened Outcomes
  import opened Documents

  /** The error `confirmOwner` throws. */
  const NotOwnerMessage := "You must own a store before you can edit it!"

  /** `confirmOwner`: passes when the store's author is the user, throws otherwise. */
  function ConfirmOwner(store: Store, user: User): (r: Verdict)
    ensures r.Allow? <==> store.author == user.id
    ensures r.Deny? ==> r.reason == NotOwnerMessage
  {
    if store.author == user.id then Allow else Deny(NotOwnerMessage)
  }

  /** What `editStore` does with a request. */
  datatype EditOutcome =
    | EditForm(title: string, store: Store)
    | EditRefused(message: string)
      // `findOne` yielded `null` and reading its `author` throws
    | EditStoreMissing

  /** `editStore`: look the store up by id, confirm the user owns it, then
      render the edit form titled `Edit <name>`. */
  function EditStore(db: seq<Store>, id: ObjectId, user: User): (r: EditOutcome)
    ensures r.EditStoreMissing? <==> forall k :: 0 <= k < |db| ==> db[k].id != id
    ensures r.EditForm? ==> r.store in db && r.store.id == id && r.store.author == user.id
    ensures r.EditForm? ==> r.title == "Edit " + r.store.name
    ensures r.EditRefused? ==>
      r.message == NotOwnerMessage && exists k :: 0 <= k < |db| && db[k].id == id && db[k].author != user.id
  {
    match FindById(db, id)
    case None => EditStoreMissing
    case Some(k) =>
      var store := db[k];
      match ConfirmOwner(store, user)
      case Deny(e) => EditRefused(e)
      case Allow => EditForm("Edit " + store.name, store)
  }

  /** A user who is not the author of a store never gets its edit form. */
  lemma NonOwnerNeverGetsEditForm(db: seq<Store>, k: nat, user: User)
    requires UniqueIds(db)
    requires k < |db|
    requires db[k].author != user.id
    ensures EditStore(db, db[k].id, user) == EditRefused(NotOwnerMessage)
  {
  }

  /** The owner of a store gets its edit form. */
  lemma OwnerGetsEditForm(db: seq<Store>, k: nat, user: User)
    requires UniqueIds(db)
    requires k < |db|
    requires db[k].author == user.id
    ensures EditStore(db, db[k].id, user) == EditForm("Edit " + db[k].name, db[k])
  {
  }

  /** The submitted fields merged over a store, with the location's `type`
      forced to `Point` (`findOneAndUpdate` with the body as the update). */
  function Merge(store: Store, body: StoreBody, location: Location): (r: Store)
    ensures r.id == store.id && r.slug == store.slug && r.author == store.author && r.created == store.created
    ensures r.location == Some(location.(kind := "Point"))
    ensures r.name == (if body.name.Some? then body.name.value else store.name)
    ensures r.description == (if body.description.Some? then body.description.value else store.description)
    ensures r.tags == (if body.tags.Some? then body.tags else store.tags)
    ensures r.photo == (if body.photo.Some? then body.photo else store.photo)
  {
    store.(
      name := ValueOr(body.name, store.name),
      description := ValueOr(body.description, store.description),
      tags := if body.tags.Some? then body.tags else store.tags,
      location := Some(location.(kind := "Point")),
      photo := if body.photo.Some? then body.photo else store.photo)
  }

  /** What `updateStore` does with a request. */
  datatype UpdateOutcome =
    | Updated(db: seq<Store>, store: Store, redirect: string)
      // the body carries no `location`, so setting its `type` throws before any write
    | LocationMissing
      // `findOneAndUpdate` matched nothing and reading the result's `name` throws
    | UpdateStoreMissing

  /** `updateStore`: set the location type to `Point`, apply the body to the
      first store with the id, and redirect back to its edit page. `user`
      is the requester, whom the controller never consults. */
  function UpdateStore(db: seq<Store>, id: ObjectId, body: StoreBody, user: User): (r: UpdateOutcome)
    ensures r.LocationMissing? <==> body.location.None?
    ensures r.UpdateStoreMissing? <==> body.location.Some? && forall k :: 0 <= k < |db| ==> db[k].id != id
    ensures r.Updated? ==>
      && |r.db| == |db|
      && r.store.id == id
      && r.store.location.Some? && r.store.location.value.kind == "Point"
      && r.redirect == "/stores/" + IdToString(id) + "/edit"
      && exists k :: 0 <= k < |db| && db[k].id == id && r.db[k] == r.store
           && (forall j :: 0 <= j < k ==> db[j].id != id)
           && r.store == Merge(db[k], body, body.location.value)
           && forall j :: 0 <= j < |db| && j != k ==> r.db[j] == db[j]
  {
    match body.location
    case None => LocationMissing
    case Some(location) =>
      match FindById(db, id)
      case None => UpdateStoreMissing
      case Some(k) =>
        var store := Merge(db[k], body, location);
        Updated(db[k := store], store, "/stores/" + IdToString(id) + "/edit")
  }

  /** A non-owner is refused the edit form, yet the same user's update of
      that store is applied. */
  lemma NonOwnerCanStillUpdate(db: seq<Store>, k: nat, body: StoreBody, user: User)
    requires UniqueIds(db)
    requires k < |db|
    requires db[k].author != user.id
    requires body.location.Some?
    ensures EditStore(db, db[k].id, user).EditRefused?
    ensures UpdateStore(db, db[k].id, body, user).Updated?
    ensures UpdateStore(db, db[k].id, body, user).db[k] == Merge(db[k], body, body.location.value)
  {
  }
}

=== FILE: queries.dfy ===
/** The read-only store queries: the tag filter of `getStoresByTag`, the
    text search of `searchStores` and the proximity search of `mapStores`. */
module Queries {
  import opened Outcomes
  import opened Seqs
  import opened Documents

  /** The condition `getStoresByTag` puts on `tags`. */
  datatype TagQuery = HasTag(tag: string) | TagsExist

  /** `tag || { $exists: true }`: an absent or empty tag (both falsy) asks
      only that the field exist. */
  function TagQueryFor(tag: Option<string>): (q: TagQuery)
    ensures q.HasTag? <==> tag.Some? && tag.value != ""
    ensures q.HasTag? ==> q.tag == tag.value
  {
    if tag.Some? && tag.value != "" then HasTag(tag.value) else TagsExist
  }

  /** Whether a store satisfies the tag condition; matching a value against
      an array field means the array contains it. */
  predicate MatchesTag(q: TagQuery, s: Store) {
    match q
    case HasTag(t) => s.tags.Some? && t in s.tags.value
    case TagsExist => s.tags.Some?
  }

  /** `Store.find({ tags: tagQuery })`: the stores satisfying the condition,
      each as often as in the collection, in collection order. */
  function GetStoresByTag(db: seq<Store>, tag: Option<string>): (r: seq<Store>)
    ensures tag.Some? && tag.value != "" ==>
      forall s :: s in r <==> s in db && s.tags.Some? && tag.value in s.tags.value
    ensures tag.None? || tag.value == "" ==>
      forall s :: s in r <==> s in db && s.tags.Some?
    ensures forall s :: s in r ==> multiset(r)[s] == multiset(db)[s]
  {
    var q := TagQueryFor(tag);
    Filter(db, s => MatchesTag(q, s))
  }

  /** The text-search capability the database provides: for a query string,
      which stores match it and the relevance score of each. */
  datatype TextIndex = TextIndex(matches: (string, Store) -> bool, score: (string, Store) -> real)

  /** Maximum number of search results. */
  const SearchLimit: nat := 5

  /** `find({ $text: { $search: q } }).sort({ score: textScore }).limit(5)`:
      the best-scoring matching stores, best first. */
  function SearchStores(db: seq<Store>, q: string, index: TextIndex): (r: seq<Store>)
    ensures |r| <= SearchLimit
    ensures forall s :: s in r ==> s in db && index.matches(q, s)
    ensures multiset(r) <= multiset(db)
    ensures forall i, j :: 0 <= i < j < |r| ==> index.score(q, r[i]) >= index.score(q, r[j])
    ensures |r| < SearchLimit ==> forall s :: s in db && index.matches(q, s) ==> s in r
    ensures forall s, i :: s in db && index.matches(q, s) && s !in r && 0 <= i < |r| ==>
      index.score(q, r[i]) >= index.score(q, s)
  {
    var r := TopMatching(db, (s: Store) => index.matches(q, s), (s: Store) => -index.score(q, s), SearchLimit);
    SearchFacts(db, q, index, r);
    r
  }

  /** The sort order and the cut-off of `SearchStores`, restated for scores. */
  lemma SearchFacts(db: seq<Store>, q: string, index: TextIndex, r: seq<Store>)
    requires r == TopMatching(db, (s: Store) => index.matches(q, s), (s: Store) => -index.score(q, s), SearchLimit)
    ensures forall i, j :: 0 <= i < j < |r| ==> index.score(q, r[i]) >= index.score(q, r[j])
    ensures forall s, i :: s in db && index.matches(q, s) && s !in r && 0 <= i < |r| ==>
      index.score(q, r[i]) >= index.score(q, s)
  {
    var key := (s: Store) => -index.score(q, s);
    assert SortedBy(r, key);
  }

  /** A search that matches nothing returns no stores. */
  lemma SearchWithoutMatchesIsEmpty(db: seq<Store>, q: string, index: TextIndex)
    requires forall s :: s in db ==> !index.matches(q, s)
    ensures SearchStores(db, q, index) == []
  {
  }

  /** Radius, in metres, of the proximity search. */
  const MaxDistance: real := 10000.0

  /** Maximum number of proximity results. */
  const GeoLimit: nat := 10

  /** The fields `select('slug name description location photo')` keeps;
      `_id` is kept as well, as MongoDB does unless told otherwise. */
  datatype StoreSummary = StoreSummary(
    id: ObjectId,
    slug: string,
    name: string,
    description: string,
    location: Option<Location>,
    photo: Option<string>)

  function Summarise(s: Store): StoreSummary {
    StoreSummary(s.id, s.slug, s.name, s.description, s.location, s.photo)
  }

  /** Whether a store lies within the search radius of `origin`; `distance`
      is the database's geodesic distance in metres. */
  predicate Near(s: Store, origin: Point, distance: (Point, Point) -> real) {
    s.location.Some? && distance(s.location.value.coordinates, origin) <= MaxDistance
  }

  /** Distance of a location from `origin` (0 when there is none; such a store is never returned). */
  function LocationDistance(loc: Option<Location>, origin: Point, distance: (Point, Point) -> real): real {
    if loc.Some? then distance(loc.value.coordinates, origin) else 0.0
  }

  /** Distance of a store from `origin`. */
  function StoreDistance(s: Store, origin: Point, distance: (Point, Point) -> real): real {
    LocationDistance(s.location, origin, distance)
  }

  /** The `$near` query with `$maxDistance: 10000` and `limit(10)`: the
      nearest stores within the radius, nearest first. */
  function NearestStores(db: seq<Store>, origin: Point, distance: (Point, Point) -> real): (r: seq<Store>)
    ensures |r| <= GeoLimit
    ensures forall s :: s in r ==> s in db && Near(s, origin, distance)
    ensures multiset(r) <= multiset(db)
    ensures forall i, j :: 0 <= i < j < |r| ==> StoreDistance(r[i], origin, distance) <= StoreDistance(r[j], origin, distance)
    ensures |r| < GeoLimit ==> forall s :: s in db && Near(s, origin, distance) ==> s in r
    ensures forall s, i :: s in db && Near(s, origin, distance) && s !in r && 0 <= i < |r| ==>
      StoreDistance(r[i], origin, distance) <= StoreDistance(s, origin, distance)
  {
    var r := TopMatching(db, (s: Store) => Near(s, origin, distance), (s: Store) => StoreDistance(s, origin, distance), GeoLimit);
    NearestFacts(db, origin, distance, r);
    r
  }

  /** The sort order and the cut-off of `NearestStores`, restated for distances. */
  lemma NearestFacts(db: seq<Store>, origin: Point, distance: (Point, Point) -> real, top: seq<Store>)
    requires top == TopMatching(db, (s: Store) => Near(s, origin, distance), (s: Store) => StoreDistance(s, origin, distance), GeoLimit)
    ensures forall i, j :: 0 <= i < j < |top| ==> StoreDistance(top[i], origin, distance) <= StoreDistance(top[j], origin, distance)
    ensures forall s, i :: s in db && Near(s, origin, distance) && s !in top && 0 <= i < |top| ==>
      StoreDistance(top[i], origin, distance) <= StoreDistance(s, origin, distance)
  {
    var key := (s: Store) => StoreDistance(s, origin, distance);
    assert SortedBy(top, key);
  }

  /** `select(...)` applied to each result. */
  function SummariseAll(stores: seq<Store>): (r: seq<StoreSummary>)
    ensures |r| == |stores|
    ensures forall i :: 0 <= i < |r| ==> r[i] == Summarise(stores[i])
    ensures forall s :: s in stores ==> Summarise(s) in r
  {
    if |stores| == 0 then [] else [Summarise(stores[0])] + SummariseAll(stores[1..])
  }

  /** `SummariseAll` is the map of `Summarise`. */
  lemma {:induction false} SummariseAllIsMap(stores: seq<Store>)
    ensures SummariseAll(stores) == Map(stores, Summarise)
  {
    if |stores| > 0 {
      SummariseAllIsMap(stores[1..]);
    }
  }

  /** Summaries of stores drawn from a collection, counted with repeats, are
      drawn from the collection's summaries. */
  lemma SummariseAllSub(a: seq<Store>, b: seq<Store>)
    requires multiset(a) <= multiset(b)
    ensures multiset(SummariseAll(a)) <= multiset(SummariseAll(b))
  {
    SummariseAllIsMap(a);
    SummariseAllIsMap(b);
    MapSub(a, b, Summarise);
  }

  /** Distance of a summarised store from `origin`. */
  function SummaryDistance(s: StoreSummary, origin: Point, distance: (Point, Point) -> real): real {
    LocationDistance(s.location, origin, distance)
  }

  /** Every summary in `r` has a location within the radius of `origin`. */
  predicate WithinRadius(r: seq<StoreSummary>, origin: Point, distance: (Point, Point) -> real) {
    forall i :: 0 <= i < |r| ==> r[i].location.Some? && SummaryDistance(r[i], origin, distance) <= MaxDistance
  }

  /** The summaries in `r` come nearest first. */
  predicate NearestFirst(r: seq<StoreSummary>, origin: Point, distance: (Point, Point) -> real) {
    forall i, j :: 0 <= i < j < |r| ==> SummaryDistance(r[i], origin, distance) <= SummaryDistance(r[j], origin, distance)
  }

  /** Every summary in `r` is that of a store of the collection. */
  predicate SummariesOf(db: seq<Store>, r: seq<StoreSummary>) {
    forall i :: 0 <= i < |r| ==> r[i] in SummariseAll(db)
  }

  /** Every store within the radius is summarised in `r`. */
  predicate AllNearSummarised(db: seq<Store>, origin: Point, distance: (Point, Point) -> real, r: seq<StoreSummary>) {
    forall s :: s in db && Near(s, origin, distance) ==> Summarise(s) in r
  }

  /** No summary in `r` lies farther from `origin` than `d`. */
  predicate NoneFarther(r: seq<StoreSummary>, origin: Point, distance: (Point, Point) -> real, d: real) {
    forall i :: 0 <= i < |r| ==> SummaryDistance(r[i], origin, distance) <= d
  }

  /** A store within the radius whose summary is missing from `r` is no nearer than any summary in `r`. */
  predicate NoNearerLeftOut(db: seq<Store>, origin: Point, distance: (Point, Point) -> real, r: seq<StoreSummary>) {
    forall s :: s in db && Near(s, origin, distance) && Summarise(s) !in r ==>
      NoneFarther(r, origin, distance, StoreDistance(s, origin, distance))
  }

  /** `mapStores` around `[lng, lat]`: the nearest stores within 10 km,
      nearest first, at most ten, each reduced to its summary fields; when
      fewer than ten come back, every store within the radius is among them. */
  function MapStores(db: seq<Store>, lng: real, lat: real, distance: (Point, Point) -> real): (r: seq<StoreSummary>)
    ensures |r| <= GeoLimit
    ensures WithinRadius(r, Point(lng, lat), distance)
    ensures NearestFirst(r, Point(lng, lat), distance)
    ensures SummariesOf(db, r)
    ensures multiset(r) <= multiset(SummariseAll(db))
    ensures |r| < GeoLimit ==> AllNearSummarised(db, Point(lng, lat), distance, r)
    ensures NoNearerLeftOut(db, Point(lng, lat), distance, r)
  {
    var near := NearestStores(db, Point(lng, lat), distance);
    SummaryBounds(db, Point(lng, lat), distance, near);
    SummaryOrder(Point(lng, lat), distance, near);
    SummaryCompleteness(db, Point(lng, lat), distance, near);
    SummariseAllSub(near, db);
    SummariseAll(near)
  }

  /** Each summary is that of a store of the collection within the radius. */
  lemma SummaryBounds(db: seq<Store>, origin: Point, distance: (Point, Point) -> real, near: seq<Store>)
    requires forall s :: s in near ==> s in db && Near(s, origin, distance)
    ensures WithinRadius(SummariseAll(near), origin, distance)
    ensures SummariesOf(db, SummariseAll(near))
  {
    forall i | 0 <= i < |near|
      ensures SummariseAll(near)[i] in SummariseAll(db)
    {
      assert near[i] in near;
    }
    assert forall i :: 0 <= i < |near| ==> near[i] in near;
  }

  /** The summaries keep the results' nearest-first order. */
  lemma SummaryOrder(origin: Point, distance: (Point, Point) -> real, near: seq<Store>)
    requires forall s :: s in near ==> s.location.Some?
    requires forall i, j :: 0 <= i < j < |near| ==> StoreDistance(near[i], origin, distance) <= StoreDistance(near[j], origin, distance)
    ensures NearestFirst(SummariseAll(near), origin, distance)
  {
    assert forall i :: 0 <= i < |near| ==> near[i] in near;
  }

  /** The summaries keep the results' completeness: a store within the radius
      whose summary is missing is no nearer than any returned one. */
  lemma SummaryCompleteness(db: seq<Store>, origin: Point, distance: (Point, Point) -> real, near: seq<Store>)
    requires forall s :: s in near ==> s.location.Some?
    requires |near| < GeoLimit ==> forall s :: s in db && Near(s, origin, distance) ==> s in near
    requires forall s, i :: s in db && Near(s, origin, distance) && s !in near && 0 <= i < |near| ==>
      StoreDistance(near[i], origin, distance) <= StoreDistance(s, origin, distance)
    ensures |near| < GeoLimit ==> AllNearSummarised(db, origin, distance, SummariseAll(near))
    ensures NoNearerLeftOut(db, origin, distance, SummariseAll(near))
  {
    var r := SummariseAll(near);
    assert forall i :: 0 <= i < |near| ==> near[i] in near && r[i].location == near[i].location;
    forall s | s in db && Near(s, origin, distance) && Summarise(s) !in r
      ensures NoneFarther(r, origin, distance, StoreDistance(s, origin, distance))
    {
      assert s !in near;
      forall i | 0 <= i < |near|
        ensures SummaryDistance(r[i], origin, distance) <= StoreDistance(s, origin, distance)
      {
        assert StoreDistance(near[i], origin, distance) <= StoreDistance(s, origin, distance);
      }
    }
  }
}

=== FILE: seqs.dfy ===
/** Sequence operations the store queries are built from: filtering (MongoDB's
    `find` with a condition, `$pull`), string prefix and split (JavaScript's
    `startsWith` and `split`), sorting by a key and taking the first few
    results (`sort` followed by `limit`). */
module Seqs {
  import opened Outcomes

  function Min(a: int, b: int): (m: int)
    ensures m <= a && m <= b
    ensures m == a || m == b
  {
    if a <= b then a else b
  }

  /** The elements of `s` that satisfy `p`, in their original order. */
  function Filter<T(!new)>(s: seq<T>, p: T -> bool): (r: seq<T>)
    ensures forall x :: multiset(r)[x] == if p(x) then multiset(s)[x] else 0
    ensures forall x :: x in r <==> x in s && p(x)
    ensures |r| <= |s|
  {
    if |s| == 0 then []
    else
      assert s == [s[0]] + s[1..];
      if p(s[0]) then [s[0]] + Filter(s[1..], p) else Filter(s[1..], p)
  }

  /** Filtering with two predicates that agree on every element of `s` gives the same result. */
  lemma {:induction false} FilterCongruent<T(!new)>(s: seq<T>, p: T -> bool, q: T -> bool)
    requires forall i :: 0 <= i < |s| ==> p(s[i]) == q(s[i])
    ensures Filter(s, p) == Filter(s, q)
  {
    if |s| > 0 {
      FilterCongruent(s[1..], p, q);
    }
  }

  /** What a filter keeps is part of the original, counted with repeats. */
  lemma FilterSub<T(!new)>(s: seq<T>, p: T -> bool)
    ensures multiset(Filter(s, p)) <= multiset(s)
  {
    forall x
      ensures multiset(Filter(s, p))[x] <= multiset(s)[x]
    {
    }
  }

  /** Filtering a concatenation filters each part. */
  lemma {:induction false} FilterAppend<T(!new)>(a: seq<T>, b: seq<T>, p: T -> bool)
    ensures Filter(a + b, p) == Filter(a, p) + Filter(b, p)
  {
    if |a| == 0 {
      assert a + b == b;
    } else {
      assert (a + b)[0] == a[0];
      assert (a + b)[1..] == a[1..] + b;
      FilterAppend(a[1..], b, p);
    }
  }

  /** Filtering keeps a sequence whose every element passes. */
  lemma {:induction false} FilterKeepsAll<T(!new)>(s: seq<T>, p: T -> bool)
    requires forall i :: 0 <= i < |s| ==> p(s[i])
    ensures Filter(s, p) == s
  {
    if |s| > 0 {
      FilterKeepsAll(s[1..], p);
      assert s == [s[0]] + s[1..];
    }
  }

  /** Taking out the element at `j` takes one occurrence out of the multiset. */
  lemma RemoveOne<T>(s: seq<T>, j: nat)
    requires j < |s|
    ensures multiset(s) == multiset(s[..j] + s[j + 1..]) + multiset{s[j]}
  {
    assert s == s[..j] + [s[j]] + s[j + 1..];
  }

  /** `s.map(f)`. */
  function Map<A, B>(s: seq<A>, f: A -> B): seq<B> {
    if |s| == 0 then [] else [f(s[0])] + Map(s[1..], f)
  }

  /** Mapping a concatenation maps each part. */
  lemma {:induction false} MapAppend<A, B>(a: seq<A>, b: seq<A>, f: A -> B)
    ensures Map(a + b, f) == Map(a, f) + Map(b, f)
  {
    if |a| == 0 {
      assert a + b == b;
    } else {
      assert (a + b)[1..] == a[1..] + b;
      MapAppend(a[1..], b, f);
    }
  }

  /** Taking out the element at `j` takes its image out of the mapped multiset. */
  lemma MapRemove<A, B>(s: seq<A>, f: A -> B, j: nat)
    requires j < |s|
    ensures multiset(Map(s, f)) == multiset(Map(s[..j] + s[j + 1..], f)) + multiset{f(s[j])}
  {
    var left, right := s[..j], s[j + 1..];
    assert s == left + ([s[j]] + right);
    MapAppend(left, [s[j]] + right, f);
    MapAppend([s[j]], right, f);
    MapAppend(left, right, f);
    assert Map([s[j]], f) == [f(s[j])];
  }

  /** Mapping keeps the sub-multiset relation. */
  lemma {:induction false} MapSub<A, B>(a: seq<A>, b: seq<A>, f: A -> B)
    requires multiset(a) <= multiset(b)
    ensures multiset(Map(a, f)) <= multiset(Map(b, f))
    decreases |a|
  {
    if |a| > 0 {
      assert a == [a[0]] + a[1..];
      assert a[0] in multiset(b);
      var j :| 0 <= j < |b| && b[j] == a[0];
      var rest := b[..j] + b[j + 1..];
      RemoveOne(b, j);
      forall x
        ensures multiset(a[1..])[x] <= multiset(rest)[x]
      {
        assert multiset(a)[x] <= multiset(b)[x];
      }
      MapSub(a[1..], rest, f);
      MapRemove(b, f, j);
    }
  }

  /** No element occurs twice. */
  ghost predicate NoDuplicates<T>(s: seq<T>) {
    forall i, j :: 0 <= i < j < |s| ==> s[i] != s[j]
  }

  lemma NoDuplicatesCount<T>(s: seq<T>, x: T)
    requires NoDuplicates(s)
    ensures multiset(s)[x] <= 1
    decreases |s|
  {
    if |s| > 0 {
      assert s == [s[0]] + s[1..];
      NoDuplicatesCount(s[1..], x);
      if s[0] == x {
        assert x !in s[1..];
      }
    }
  }

  /** A sequence in which nothing occurs more than once has no duplicates. */
  lemma CountsAtMostOne<T>(s: seq<T>)
    requires forall x :: multiset(s)[x] <= 1
    ensures NoDuplicates(s)
  {
    forall i, j | 0 <= i < j < |s|
      ensures s[i] != s[j]
    {
      assert s == s[..j] + s[j..];
      assert s[..j][i] == s[i] && s[j..][0] == s[j];
      assert multiset(s)[s[j]] == multiset(s[..j])[s[j]] + multiset(s[j..])[s[j]];
      assert multiset(s[..j])[s[i]] >= 1 && multiset(s[j..])[s[j]] >= 1;
    }
  }

  /** Filtering keeps a sequence free of duplicates. */
  lemma {:induction false} FilterNoDuplicates<T(!new)>(s: seq<T>, p: T -> bool)
    requires NoDuplicates(s)
    ensures NoDuplicates(Filter(s, p))
  {
    if |s| > 0 {
      assert NoDuplicates(s[1..]) by {
        forall i, j | 0 <= i < j < |s[1..]|
          ensures s[1..][i] != s[1..][j]
        {
          assert s[1..][i] == s[i + 1] && s[1..][j] == s[j + 1];
        }
      }
      FilterNoDuplicates(s[1..], p);
      assert s[0] !in s[1..];
    }
  }

  /** JavaScript's `s.startsWith(prefix)`, compared character by character. */
  function StartsWith(s: string, prefix: string): (b: bool)
    ensures b <==> prefix <= s
  {
    if |prefix| == 0 then true
    else if |s| == 0 then false
    else s[0] == prefix[0] && StartsWith(s[1..], prefix[1..])
  }

  /** JavaScript's `s.split(sep)` for a one-character separator: the pieces
      between separators, including empty ones; an empty string gives `[""]`. */
  function Split(s: string, sep: char): (parts: seq<string>)
    ensures |parts| >= 1
    ensures forall i :: 0 <= i < |parts| ==> sep !in parts[i]
    ensures |parts| >= 2 <==> sep in s
    decreases |s|
  {
    if |s| == 0 then [""]
    else if s[0] == sep then [""] + Split(s[1..], sep)
    else
      var rest := Split(s[1..], sep);
      [[s[0]] + rest[0]] + rest[1..]
  }

  /** JavaScript's `parts.join(sep)`. */
  function Join(parts: seq<string>, sep: char): string
    requires |parts| >= 1
  {
    if |parts| == 1 then parts[0] else parts[0] + [sep] + Join(parts[1..], sep)
  }

  /** Joining the pieces of a split gives back the original string. */
  lemma {:induction false} JoinSplit(s: string, sep: char)
    ensures Join(Split(s, sep), sep) == s
    decreases |s|
  {
    if |s| > 0 {
      JoinSplit(s[1..], sep);
      var rest := Split(s[1..], sep);
      if s[0] == sep {
        assert Split(s, sep)[1..] == rest;
      } else {
        assert s == [s[0]] + s[1..];
        if |rest| > 1 {
          assert Split(s, sep)[1..] == rest[1..];
        }
      }
    }
  }

  /** Splitting `a + [sep] + b` when `a` holds no separator: `a` is the first piece. */
  lemma {:induction false} SplitAfterFirst(a: string, sep: char, b: string)
    requires sep !in a
    ensures Split(a + [sep] + b, sep) == [a] + Split(b, sep)
    decreases |a|
  {
    if |a| == 0 {
      assert a + [sep] + b == [sep] + b;
      assert ([sep] + b)[1..] == b;
    } else {
      var s := a + [sep] + b;
      assert s[0] == a[0] && s[0] != sep;
      assert s[1..] == a[1..] + [sep] + b;
      SplitAfterFirst(a[1..], sep, b);
      assert Split(s, sep) == [[a[0]] + a[1..]] + Split(b, sep);
      assert [a[0]] + a[1..] == a;
    }
  }

  /** Splitting pieces that hold no separator, once joined, gives the pieces back. */
  lemma {:induction false} SplitJoin(parts: seq<string>, sep: char)
    requires |parts| >= 1
    requires forall i :: 0 <= i < |parts| ==> sep !in parts[i]
    ensures Split(Join(parts, sep), sep) == parts
    decreases |parts|
  {
    if |parts| == 1 {
      SplitNoSeparator(parts[0], sep);
    } else {
      SplitJoin(parts[1..], sep);
      SplitAfterFirst(parts[0], sep, Join(parts[1..], sep));
      assert parts == [parts[0]] + parts[1..];
    }
  }

  /** A string with no separator splits into itself alone. */
  lemma {:induction false} SplitNoSeparator(s: string, sep: char)
    requires sep !in s
    ensures Split(s, sep) == [s]
    decreases |s|
  {
    if |s| > 0 {
      SplitNoSeparator(s[1..], sep);
      assert s == [s[0]] + s[1..];
    }
  }

  /** The first piece of a split is the longest separator-free prefix. */
  lemma {:induction false} FirstPiece(s: string, sep: char)
    ensures Split(s, sep)[0] <= s
    ensures |Split(s, sep)[0]| == |s| || s[|Split(s, sep)[0]|] == sep
    decreases |s|
  {
    if |s| > 0 && s[0] != sep {
      FirstPiece(s[1..], sep);
    }
  }

  /** Keys are non-decreasing along `s`. */
  ghost predicate SortedBy<T>(s: seq<T>, key: T -> real) {
    forall i, j :: 0 <= i < j < |s| ==> key(s[i]) <= key(s[j])
  }

  /** Inserts `x` before the first element whose key is not smaller. */
  function Insert<T>(x: T, s: seq<T>, key: T -> real): (r: seq<T>)
    requires SortedBy(s, key)
    ensures SortedBy(r, key)
    ensures multiset(r) == multiset(s) + multiset{x}
    ensures |r| == |s| + 1
  {
    if |s| == 0 then [x]
    else if key(x) <= key(s[0]) then [x] + s
    else
      assert s == [s[0]] + s[1..];
      var rest := Insert(x, s[1..], key);
      HeadBelowTail(s, key);
      assert forall z :: z in rest ==> z == x || z in s[1..] by {
        assert forall z :: z in rest ==> z in multiset(s[1..]) + multiset{x};
      }
      ConsSorted(s[0], rest, key);
      [s[0]] + rest
  }

  /** In a sorted sequence no later element has a smaller key than the first. */
  lemma HeadBelowTail<T>(s: seq<T>, key: T -> real)
    requires SortedBy(s, key)
    requires |s| > 0
    ensures forall z :: z in s[1..] ==> key(s[0]) <= key(z)
  {
    forall z | z in s[1..]
      ensures key(s[0]) <= key(z)
    {
      var i :| 0 <= i < |s[1..]| && s[1..][i] == z;
      assert s[i + 1] == z;
    }
  }

  /** Putting `y` in front of a sorted sequence whose elements all have keys at least `key(y)`. */
  lemma ConsSorted<T>(y: T, rest: seq<T>, key: T -> real)
    requires SortedBy(rest, key)
    requires forall z :: z in rest ==> key(y) <= key(z)
    ensures SortedBy([y] + rest, key)
  {
    forall i, j | 0 <= i < j < |[y] + rest|
      ensures key(([y] + rest)[i]) <= key(([y] + rest)[j])
    {
      if i == 0 {
        assert ([y] + rest)[j] == rest[j - 1];
        assert rest[j - 1] in rest;
      }
    }
  }

  /** `s` rearranged so that keys are non-decreasing (an insertion sort). */
  function SortBy<T>(s: seq<T>, key: T -> real): (r: seq<T>)
    ensures SortedBy(r, key)
    ensures multiset(r) == multiset(s)
    ensures |r| == |s|
  {
    if |s| == 0 then []
    else
      assert s == [s[0]] + s[1..];
      Insert(s[0], SortBy(s[1..], key), key)
  }

  /** The first `k` elements of `s` after sorting by `key`: MongoDB's
      `sort(key).limit(k)`. */
  function Top<T(!new)>(s: seq<T>, key: T -> real, k: nat): (r: seq<T>)
    ensures |r| == Min(k, |s|)
    ensures SortedBy(r, key)
    ensures multiset(r) <= multiset(s)
    ensures forall x :: x in r ==> x in s
    ensures forall x, i :: 0 <= i < |r| && multiset(r)[x] < multiset(s)[x] ==> key(r[i]) <= key(x)
  {
    var sorted := SortBy(s, key);
    TopLemma(sorted, Min(k, |s|), key);
    sorted[..Min(k, |s|)]
  }

  /** A prefix of a sorted sequence: its elements come from the sequence, and
      any occurrence left outside the prefix has a key no smaller than the
      prefix's keys. */
  lemma TopLemma<T(!new)>(sorted: seq<T>, k: nat, key: T -> real)
    requires k <= |sorted|
    requires SortedBy(sorted, key)
    ensures SortedBy(sorted[..k], key)
    ensures multiset(sorted[..k]) <= multiset(sorted)
    ensures forall x :: x in sorted[..k] ==> x in sorted
    ensures forall x, i :: 0 <= i < k && multiset(sorted[..k])[x] < multiset(sorted)[x] ==> key(sorted[i]) <= key(x)
  {
    var p := sorted[..k];
    assert sorted == p + sorted[k..];
    forall x, i | 0 <= i < k && multiset(p)[x] < multiset(sorted)[x]
      ensures key(sorted[i]) <= key(x)
    {
      assert x in sorted[k..];
      var j :| 0 <= j < |sorted[k..]| && sorted[k..][j] == x;
      assert sorted[k + j] == x;
    }
  }

  /** The `k` elements satisfying `p` with the smallest keys, smallest first:
      a query with a condition, a sort and a limit. */
  function TopMatching<T(!new)>(s: seq<T>, p: T -> bool, key: T -> real, k: nat): (r: seq<T>)
    ensures |r| <= k
    ensures forall x :: x in r ==> x in s && p(x)
    ensures multiset(r) <= multiset(Filter(s, p))
    ensures multiset(r) <= multiset(s)
    ensures SortedBy(r, key)
    ensures |r| < k ==> multiset(r) == multiset(Filter(s, p))
    ensures |r| < k ==> forall x :: x in s && p(x) ==> x in r
    ensures forall x, i :: x in s && p(x) && x !in r && 0 <= i < |r| ==> key(r[i]) <= key(x)
  {
    var found := Filter(s, p);
    var r := Top(found, key, k);
    FilterSub(s, p);
    assert |r| < k ==> multiset(r) == multiset(found) by {
      if |r| < k {
        SubMultisetSameSize(multiset(r), multiset(found));
      }
    }
    r
  }

  /** A sub-multiset as large as the whole is the whole. */
  lemma SubMultisetSameSize<T>(a: multiset<T>, b: multiset<T>)
    requires a <= b
    requires |a| == |b|
    ensures a == b
  {
    var d := b - a;
    assert b == a + d;
    assert |d| == 0;
  }
}

=== FILE: upload.dfy ===
/** The upload gate and photo naming of the store form: multer's `fileFilter`
    and the naming half of the `resize` middleware. */
module Upload {
  import opened Outcomes
  import opened Seqs
  import opened Documents

  /** The mime-type prefix an upload must carry. */
  const ImagePrefix := "image/"

  /** The error handed to multer when a file is refused. */
  const FiletypeNotAllowed := "That filetype isn't allowed!"

  /** The part of an uploaded file the model looks at. */
  datatype UploadedFile = UploadedFile(mimetype: string)

  /** multer's `fileFilter`: let the file through when its mime type starts
      with `image/`, refuse it with an error otherwise. */
  function FileFilter(file: UploadedFile): (r: Verdict)
    ensures r.Allow? <==> |file.mimetype| >= |ImagePrefix| && file.mimetype[..|ImagePrefix|] == ImagePrefix
    ensures r.Deny? ==> r.reason == FiletypeNotAllowed
  {
    if StartsWith(file.mimetype, ImagePrefix) then Allow else Deny(FiletypeNotAllowed)
  }

  /** `mimetype.split('/')[1]` placed in a template string: the second piece,
      or `"undefined"` when there is none. */
  function Extension(mimetype: string): (ext: string)
    ensures '/' !in mimetype ==> ext == "undefined"
    ensures '/' in mimetype ==> '/' !in ext && ext == Split(mimetype, '/')[1]
  {
    var parts := Split(mimetype, '/');
    if |parts| >= 2 then parts[1] else "undefined"
  }

  /** The `resize` middleware's effect on the form: with no file the body is
      untouched; with a file, `photo` becomes `<token>.<extension>`, `token`
      standing for the generated uuid. For an image type the extension is the
      mime subtype up to the next `/`. */
  function Resize(file: Option<UploadedFile>, body: StoreBody, token: string): (r: StoreBody)
    ensures file.None? ==> r == body
    ensures file.Some? ==> r.photo.Some? && r.(photo := body.photo) == body
    ensures file.Some? ==> token + "." <= r.photo.value
    ensures file.Some? && FileFilter(file.value).Allow? ==>
      var m := file.value.mimetype;
      var ext := r.photo.value[|token| + 1..];
      && '/' !in ext
      && ext <= m[|ImagePrefix|..]
      && (|ext| == |m| - |ImagePrefix| || m[|ImagePrefix| + |ext|] == '/')
  {
    match file
    case None => body
    case Some(f) =>
      var name := token + "." + Extension(f.mimetype);
      assert FileFilter(f).Allow? ==>
        ('/' !in Extension(f.mimetype) && Extension(f.mimetype) <= f.mimetype[|ImagePrefix|..]
         && (|Extension(f.mimetype)| == |f.mimetype| - |ImagePrefix| || f.mimetype[|ImagePrefix| + |Extension(f.mimetype)|] == '/')) by {
        if FileFilter(f).Allow? {
          ImageExtension(f.mimetype);
        }
      }
      assert name[|token| + 1..] == Extension(f.mimetype);
      body.(photo := Some(name))
  }

  /** For an `image/...` type the extension is the subtype up to the next `/`. */
  lemma ImageExtension(mimetype: string)
    requires |mimetype| >= |ImagePrefix| && mimetype[..|ImagePrefix|] == ImagePrefix
    ensures '/' !in Extension(mimetype)
    ensures Extension(mimetype) <= mimetype[|ImagePrefix|..]
    ensures |Extension(mimetype)| == |mimetype| - |ImagePrefix| || mimetype[|ImagePrefix| + |Extension(mimetype)|] == '/'
  {
    var rest := mimetype[|ImagePrefix|..];
    assert mimetype == "image" + ['/'] + rest;
    SplitAfterFirst("image", '/', rest);
    FirstPiece(rest, '/');
  }

  /** What reaches `createStore`/`updateStore` after the upload middleware. */
  datatype Ingested = Accepted(body: StoreBody) | Rejected(message: string)

  /** `upload` followed by `resize`: a refused file stops the request with the
      filter's error; otherwise the body goes on, named photo included. */
  function Ingest(file: Option<UploadedFile>, body: StoreBody, token: string): (r: Ingested)
    ensures r.Rejected? <==> file.Some? && !(ImagePrefix <= file.value.mimetype)
    ensures r.Rejected? ==> r.message == FiletypeNotAllowed
    ensures file.None? ==> r == Accepted(body)
    ensures r.Accepted? && file.Some? ==>
      r.body.photo == Some(token + "." + Extension(file.value.mimetype)) && r.body.(photo := body.photo) == body
  {
    match file
    case None => Accepted(body)
    case Some(f) =>
      match FileFilter(f)
      case Deny(e) => Rejected(e)
      case Allow => Accepted(Resize(file, body, token))
  }

  /** A plain-text upload is refused with the filter's message. */
  lemma PlainTextRefused(body: StoreBody, token: string)
    ensures Ingest(Some(UploadedFile("text/plain")), body, token) == Rejected(FiletypeNotAllowed)
  {
  }

  /** An `image/<subtype>` upload whose subtype holds no `/`, such as
      `image/png`, is stored as `<token>.<subtype>`. */
  lemma {:induction false} ImageSubtypeNamed(subtype: string, body: StoreBody, token: string)
    requires '/' !in subtype
    ensures Ingest(Some(UploadedFile(ImagePrefix + subtype)), body, token)
         == Accepted(body.(photo := Some(token + "." + subtype)))
  {
    var m := ImagePrefix + subtype;
    assert m == "image" + ['/'] + subtype;
    SplitAfterFirst("image", '/', subtype);
    SplitNoSeparator(subtype, '/');
    assert Split(m, '/') == ["image", subtype];
    assert m[..|ImagePrefix|] == ImagePrefix;
  }
}
